=== FILE: README.md ===
# Tap-to-earn score and session engine, in Dafny

This project models the score engine of a Telegram "tap-to-earn" game
backend. Each user has a score, an allowance of game sessions that recharges
over time, a passive farming rate, a tap tier derived from the score, and an
optional referrer. Each request handler is one atomic transition over an
in-memory store. The store holds a map of users, the task catalogue, and the
set of (user, task) completion pairs. Every handler either fails with an
`Error`, leaving the store as it was (the service never commits a failed
request), or it returns the new store and the reply body.

Modules, one per component:

- `Models` (models.dfy): the `User`, `Task` and `Store` records, the
  constant `MAX_SESSIONS = 10`, the schema defaults for a new user, the
  store constraints (unique referral codes, referrers that exist, sessions
  in `0..MAX_SESSIONS`, completions that name stored users), and the lookup
  by referral code.
- `Tiers` (tiers.dfy): `get_tap_level`. It is checked against an
  independent threshold table.
- `Accrual` (accrual.dfy): Python's truncating `int()` of a quotient, the
  claimable farming reward, the claim step and the session recharge step on
  one user.
- `Engine` (engine.dfy): the handlers `claim_rewards`, `save_wallet`,
  `submit_game_score`, `sync_score`, `claim_task`, `get_user_data` (first
  contact with the referral bonus, or a refresh with recharge) and
  `get_tasks`.
- `Invariants` (invariants.dfy): what each handler preserves, and what
  repeated requests do.

Time is whole seconds, and "now" is a parameter of every handler that reads
the clock. The fresh referral code of a new account is also a parameter. The
identity of the caller is an `Identity` value: id, names and an optional
referral code.

In several places the service behaves in ways that are easy to misread. The
model follows the code:

- The stored `tap_level` is not kept equal to the tier of the score.
  `claim_task`, `claim_rewards` and the referral bonus do not rewrite it.
  `submit_game_score` rewrites it only when the new score is at least 100.
  Every reply that reports a level computes it from the score instead. The
  model proves the weaker invariant that does hold: the stored level is a
  tier, and it is never above the score's tier while scores only grow
  (`LevelsBehindScore`). A witness lemma shows that a negative game result
  breaks it. The store constraints do not depend on it: each handler keeps
  them on every valid store, whether or not the level bound holds.
- The claimable reward is not clamped at zero. With the clock behind the
  last claim time, the displayed figure is negative (or zero), because
  `int()` truncates toward zero. A claim still does nothing then.
- The recharge timer restarts at "now", not at the last whole interval, so
  leftover seconds are dropped (`RechargeDropsPartialInterval`).
- Tap counts, game results and task points are not validated. They may be
  negative, so scores are modelled as `int`. Scores are also unbounded here,
  although the database column is a fixed-width integer (see "Left out").
- The first name is a required column (backend/core/models.py:11), but the
  identity payload may lack it. Creating an account without one, or
  refreshing an account with one missing, fails at the commit. This is
  modelled as `Err(Internal)` with no state change.
- `claim_task` reads the user only after its two checks. A missing user
  then raises an unhandled exception before the commit. This is modelled as
  `Err(Internal)` with no state change.

## Model

| member | source | states |
|---|---|---|
| Tiers.TapLevel | backend/main.py:67-77 | the level is one of 1, 2, 3, 5, 10; it is the highest tier whose threshold the score reaches |
| Tiers.TapLevelMatchesTable | backend/main.py:67-77 | for every score, the conditionals agree with the threshold table (5000→10, 1000→5, 300→3, 100→2, else 1) |
| Tiers.TapLevelMonotone | backend/main.py:67-77 | a higher score never earns a lower level |
| Tiers.TapLevelAtThresholds | backend/main.py:67-77 | 99→1, 100→2, 299→2, 300→3, 999→3, 1000→5, 4999→5, 5000→10 |
| Accrual.TruncDiv | backend/main.py:99 | `int()` of a quotient: for a non-negative numerator, the greatest multiple not above it; for a negative one, a non-positive quotient within one divisor of it |
| Accrual.Claimable | backend/main.py:250-253 | the reward is positive exactly when elapsed seconds × rate reach 3600; for a non-negative product it is the whole number of points farmed; it is never positive when the product is not |
| Accrual.ClaimUser | backend/main.py:98-106 | only score and claim time can change; the score grows iff a whole point was farmed, by exactly the truncated amount, and then the claim time becomes now; otherwise the user is unchanged |
| Accrual.RechargeUser | backend/main.py:241-249 | only sessions and the recharge time can change; under 600 s nothing changes; otherwise the timer becomes now and sessions become the smaller of MAX_SESSIONS and old + whole intervals; a count within the cap never decreases and stays within it |
| Accrual.ClaimableWithoutElapsedTime | backend/main.py:98-99 | with a non-negative rate, no claimable reward when the clock has not advanced past the last claim, and exactly 0 when no time elapsed |
| Accrual.ClaimTwiceIsNoop | backend/main.py:98-106 | a second claim at the same instant leaves the user unchanged |
| Accrual.ClaimAfterOneHour | backend/main.py:98-106 | 95 points, rate 100, last claim an hour ago: 100 claimable, score 195, timer at now |
| Accrual.RechargeIsCapped | backend/main.py:242-249 | after 100 days away, sessions are exactly MAX_SESSIONS, not more |
| Accrual.RechargeTwiceIsNoop | backend/main.py:242-249 | a second recharge at the same instant changes nothing |
| Accrual.RechargeDropsPartialInterval | backend/main.py:245-248 | after a recharge, reads within the next 600 s add nothing, so leftover seconds are lost |
| Models.FindByCode | backend/main.py:213-215 | with unique codes, the lookup finds a user iff one carries the code, and that user is the only one |
| Engine.ClaimRewards | backend/main.py:87-118 | unknown user → UserNotFound; otherwise only the caller's record changes, as a claim; the reply reports the new score, its tier and 0 claimable |
| Engine.SaveWallet | backend/main.py:125-155 | unknown user → UserNotFound; an address outside 32..44 characters → InvalidWallet; otherwise only the caller's wallet changes, and the reply reports it |
| Engine.SubmittedLevel | backend/main.py:179-186 | the level written equals the score's tier from 100 points up, and is the stored level below 100 |
| Engine.SubmitGameScore | backend/main.py:159-192 | unknown user → UserNotFound; no session left → NoSessionsLeft; otherwise one session is spent, the score grows by exactly the result, the level follows the score only from 100 up, and nothing else changes |
| Engine.SyncScore | backend/main.py:273-316 | unknown user → UserNotFound; otherwise the score grows by exactly the taps, a session is spent only if one was left, the stored level becomes the score's tier, nothing else changes, and the reply reports the new record with 0 claimable |
| Engine.ClaimTask | backend/main.py:408-446 | missing task → TaskNotFound; recorded pair → TaskAlreadyCompleted; missing user → Internal; otherwise exactly that pair is added, the user gains exactly the task's points, and the level and everything else are unchanged |
| Engine.ResolveReferrer | backend/main.py:210-215 | a referrer is found iff a non-empty code was supplied that a stored user carries, and it is that user |
| Engine.CreateUser | backend/main.py:205-232 | a payload without a first name (a required column) or a colliding fresh code → Internal, with no bonus paid; otherwise the new user has score 0, MAX_SESSIONS sessions, level 1, rate 100 and both timers at now; a resolved referrer alone gains 10000 and is recorded as `referredById`; otherwise no one else changes |
| Engine.RefreshUser | backend/main.py:233-253 | a payload without a first name → Internal, since the rename would write a missing value into a required column; otherwise a returning user is renamed and recharged, with score and claim time untouched; the reply shows the claimable reward, which is not claimed |
| Engine.GetUserData | backend/main.py:197-270 | it refreshes a known user and creates an unknown one; in the model it fails only for a payload without a first name or, on creation, a colliding code; the reply's level is the tier of the stored score |
| Engine.CompletedTaskIds | backend/main.py:391-393 | a task id is in the set iff the pair (user, task) is recorded |
| Engine.ListTasks | backend/main.py:384-406 | one row per catalogued task, carrying that task's fields, completed iff the caller's pair is recorded |
| Invariants.ClaimRewardsPreserves | backend/main.py:98-106 | on any valid store, a claim keeps the store constraints; where stored levels were at or below the score's tier, they stay so |
| Invariants.SaveWalletPreserves | backend/main.py:136-142 | on any valid store, saving a wallet keeps the store constraints, and the level bound where it held |
| Invariants.SubmitGameScorePreserves | backend/main.py:173-186 | on any valid store, a submission keeps the store constraints, including sessions ≥ 0; it keeps the level bound, where it held, for a non-negative result |
| Invariants.SyncScorePreserves | backend/main.py:287-301 | on any valid store, a sync keeps the store constraints, including sessions ≥ 0; where the level bound held it still holds, for any tap count |
| Invariants.ClaimTaskPreserves | backend/main.py:417-435 | on any valid store, a task claim keeps the store constraints; it keeps the level bound, where it held, for a task with non-negative points |
| Invariants.RefreshUserPreserves | backend/main.py:235-249 | on any valid store, a successful rename and recharge keeps sessions within the cap and every other constraint, and the level bound where it held |
| Invariants.CreateUserKeepsCodesUnique | backend/core/models.py:24 | after a successful creation, referral codes are still unique |
| Invariants.CreateUserPreserves | backend/main.py:210-232 | on any valid store, creation keeps every store constraint: the referrer exists and is another user, and sessions are in range; it also keeps the level bound where it held |
| Invariants.GetUserDataPreserves | backend/main.py:205-249 | on any valid store, every successful `get_user_data` keeps the constraints, and the level bound where it held |
| Invariants.ClaimRewardsTwiceIsNoop | backend/main.py:98-106 | a second `claim_rewards` at the same instant returns the same store and reply |
| Invariants.SubmitCanLeaveLevelAhead | backend/main.py:177-186 | from score 150 at level 2, a result of −100 leaves level 2 stored for score 50, above its tier 1 |
| Invariants.ClaimsAfterCompletionChangeNothing | backend/main.py:422-424 | once the pair is recorded, any number of further claims leaves the store unchanged |
| Invariants.ClaimTaskPaysOnce | backend/main.py:417-435 | any number (≥ 1) of claims of a fresh pair records it once and pays the task's points exactly once |
| Invariants.ClaimTaskTwiceFails | backend/main.py:422-428 | an immediate repeat of a successful claim is refused with TaskAlreadyCompleted |
| Invariants.ReferralBonusOnlyOnCreation | backend/main.py:205-249 | with unique referral codes, after an account is created, a later contact by the same user succeeds iff it carries a first name, and then changes no other user's record, whatever code it carries |
| Invariants.ClaimedTaskIsListedCompleted | backend/main.py:393-404 | after a successful claim, the task listing marks that task completed |
| Invariants.SavedWalletIsReported | backend/main.py:139 | after a successful save, the next `get_user_data` succeeds iff the payload carries a first name, and then reports the saved address |
| Invariants.SyncWithoutSessionsStillScores | backend/main.py:287-290 | with 0 sessions, a sync adds the taps and leaves 0 sessions, where the strict path answers NoSessionsLeft |

## Left out

- HTTP routing, reply serialisation, static files and the index page: they are I/O plumbing. Each `Error` constructor notes the HTTP status the service returns for it.
- The leaderboard (`get_leaderboard`): its ordering and rank come from SQL `ORDER BY` and `RANK()`, and it swallows all store errors.
- `get_friends`: a plain query by `referred_by_id`. It changes no state and lies outside the score engine.
- Startup seeding of the default tasks: it is database initialisation only.
- The admin console (backend/admin/routes.py). The task catalogue is an input map that no handler here changes. Because an admin may delete a task, the store constraints do not require a completion's task to exist.
- Telegram init-data verification and the development-mode identity (backend/core/security.py): the identity arrives already validated as an `Identity`.
- Engine and session wiring (backend/core/database.py), concurrency and row locking: each handler is one atomic transition, with no interleaving.
- Floating-point time: elapsed time is whole seconds and quotients are exact rationals truncated toward zero. Float rounding at the truncation boundary and sub-second precision are not modelled.
- Accrual.ClaimUser: the service reads the clock twice, once to measure and once to reset the timer; one `now` stands for both.
- Engine.CreateUser: the new user's two timers come from separate clock reads in the service; both are `now` here.
- Engine.RefreshUser: the service reads the clock three times, to measure the recharge, to reset its timer and to measure the claimable reward; one `now` stands for all three.
- Integer width: `score` and task `points` are fixed-width INTEGER columns (backend/core/models.py:14, 34): 64-bit on the default SQLite store, 32-bit on Postgres. A commit that writes a score outside that range fails with a 500 and saves nothing. Scores in the model are unbounded `int`, and no handler fails for an out-of-range score. The members below therefore promise `Ok` where the service would answer `Internal`.
- Engine.SyncScore: a tap count that pushes the score out of the column's range succeeds in the model, but fails at the commit in the service.
- Engine.SubmitGameScore: a game result that pushes the score out of the column's range succeeds in the model, but fails at the commit in the service.
- Engine.ClaimTask: task points that push the score out of the column's range succeed in the model, but fail at the commit in the service.
- Engine.ClaimRewards: a claimed reward that pushes the score out of the column's range succeeds in the model, but fails at the commit in the service.
- Engine.CreateUser: a referral bonus that pushes the referrer's score out of the column's range succeeds in the model, but fails at the commit in the service.
- Engine.GetUserData: its failure condition omits that overflow on creation, so "fails only for" holds of the model and not of the service.
- UUID generation: the new account's referral code is a parameter. A collision with a stored code is the unique-index failure, `Err(Internal)`.
- The order of the task listing is whatever the database returns. `ListTasks` is keyed by task id.
- Engine.GetUserData: requires unique referral codes, which the schema's unique index guarantees for any store the service can read.
- `Identity` carries only the payload fields the handlers read: id, names and the referral code used. The payload's other fields, such as the language code, are left out. `User` carries every column of the user table, with `id` as the map key.

=== FILE: accrual.dfy ===
/** Time-based accrual on one user record: passive farming rewards and
    game-session recharge. The service measures elapsed time as a float and
    converts with Python's int(), which truncates toward zero; here time is
    whole seconds and the quotient is truncated the same way. */
module Accrual {
  import opened Models

  const SECONDS_PER_HOUR: int := 3600

  /** One game session comes back per this many seconds. */
  const RECHARGE_INTERVAL: int := 600

  /** Python's int(a / b) for b > 0: the quotient truncated toward zero, so
      a negative numerator gives a non-positive quotient. */
  function TruncDiv(a: int, b: int): (q: int)
    requires b > 0
    ensures a >= 0 ==> 0 <= q && q * b <= a < q * b + b
    ensures a < 0 ==> q <= 0 && q * b - b < a <= q * b
  {
    if a >= 0 then
      a / b
    else
      var q := (-a) / b;
      assert (-q) * b == -(q * b);
      -q
  }

  /** Rewards farmed between `lastClaim` and `now` at `rate` points per hour,
      in whole points. */
  function Claimable(lastClaim: Timestamp, rate: int, now: Timestamp): (r: int)
    ensures r > 0 <==> (now - lastClaim) * rate >= SECONDS_PER_HOUR
    ensures (now - lastClaim) * rate >= 0 ==>
      0 <= r && r * SECONDS_PER_HOUR <= (now - lastClaim) * rate < (r + 1) * SECONDS_PER_HOUR
    ensures (now - lastClaim) * rate <= 0 ==> r <= 0
  {
    TruncDiv((now - lastClaim) * rate, SECONDS_PER_HOUR)
  }

  /** The claim step of claim_rewards: fold the farmed rewards into the score
      and restart the claim timer, but only when at least one whole point has
      been farmed. */
  function ClaimUser(u: User, now: Timestamp): (u': User)
    ensures u' == u.(score := u'.score, lastClaimTime := u'.lastClaimTime)
    ensures u'.score > u.score <==> (now - u.lastClaimTime) * u.farmingRate >= SECONDS_PER_HOUR
    ensures u'.score > u.score ==>
      && u'.lastClaimTime == now
      && (u'.score - u.score) * SECONDS_PER_HOUR <= (now - u.lastClaimTime) * u.farmingRate
      && (now - u.lastClaimTime) * u.farmingRate < (u'.score - u.score + 1) * SECONDS_PER_HOUR
    ensures u'.score <= u.score ==> u' == u
  {
    var c := Claimable(u.lastClaimTime, u.farmingRate, now);
    if c > 0 then u.(score := u.score + c, lastClaimTime := now) else u
  }

  /** The recharge step of get_user_data: one session per whole interval
      elapsed, capped at MAX_SESSIONS; whenever anything is added the timer
      restarts at `now`, dropping the seconds left over. */
  function RechargeUser(u: User, now: Timestamp): (u': User)
    ensures u' == u.(gameSessions := u'.gameSessions, lastSessionRecharge := u'.lastSessionRecharge)
    ensures now - u.lastSessionRecharge < RECHARGE_INTERVAL ==> u' == u
    ensures now - u.lastSessionRecharge >= RECHARGE_INTERVAL ==>
      && u'.lastSessionRecharge == now
      && u'.gameSessions <= MAX_SESSIONS
      && u'.gameSessions <= u.gameSessions + (now - u.lastSessionRecharge) / RECHARGE_INTERVAL
      && (u'.gameSessions == MAX_SESSIONS
          || u'.gameSessions == u.gameSessions + (now - u.lastSessionRecharge) / RECHARGE_INTERVAL)
    ensures u.gameSessions <= MAX_SESSIONS ==> u.gameSessions <= u'.gameSessions <= MAX_SESSIONS
  {
    var add := TruncDiv(now - u.lastSessionRecharge, RECHARGE_INTERVAL);
    if add > 0 then
      var total := u.gameSessions + add;
      u.(gameSessions := if total < MAX_SESSIONS then total else MAX_SESSIONS,
         lastSessionRecharge := now)
    else
      u
  }

  /** With no time elapsed nothing is claimable; with the clock behind the
      last claim the figure is never positive. */
  lemma ClaimableWithoutElapsedTime(lastClaim: Timestamp, rate: int, now: Timestamp)
    requires rate >= 0 && now <= lastClaim
    ensures Claimable(lastClaim, rate, now) <= 0
    ensures now == lastClaim ==> Claimable(lastClaim, rate, now) == 0
  {
    assert (now - lastClaim) * rate <= 0;
  }

  /** Claiming a second time at the same instant changes nothing. */
  lemma ClaimTwiceIsNoop(u: User, now: Timestamp)
    ensures ClaimUser(ClaimUser(u, now), now) == ClaimUser(u, now)
  {
    var u1 := ClaimUser(u, now);
    if u1.score > u.score {
      assert (now - u1.lastClaimTime) * u1.farmingRate == 0;
    }
  }

  /** For example: 95 points, 100 points an hour, last claim an hour
      ago: 100 points are claimable and the score becomes 195. */
  lemma ClaimAfterOneHour(u: User, now: Timestamp)
    requires u.score == 95 && u.farmingRate == 100 && u.lastClaimTime == now - 3600
    ensures Claimable(u.lastClaimTime, u.farmingRate, now) == 100
    ensures ClaimUser(u, now).score == 195 && ClaimUser(u, now).lastClaimTime == now
  {
  }

  /** However long the user was away, sessions stay within the cap. */
  lemma RechargeIsCapped(u: User, now: Timestamp)
    requires 0 <= u.gameSessions <= MAX_SESSIONS
    requires now - u.lastSessionRecharge >= 100 * 24 * 3600
    ensures RechargeUser(u, now).gameSessions == MAX_SESSIONS
  {
    assert (now - u.lastSessionRecharge) / RECHARGE_INTERVAL >= MAX_SESSIONS;
  }

  /** A second read at the same instant recharges nothing. */
  lemma RechargeTwiceIsNoop(u: User, now: Timestamp)
    ensures RechargeUser(RechargeUser(u, now), now) == RechargeUser(u, now)
  {
  }

  /** Because the timer restarts at `now`, the seconds already accumulated
      toward the next session are lost: a read up to a full interval later
      still adds nothing, even when the previous recharge had, say, 599
      seconds to spare. */
  lemma RechargeDropsPartialInterval(u: User, now: Timestamp, later: Timestamp)
    requires now - u.lastSessionRecharge >= RECHARGE_INTERVAL
    requires now <= later < now + RECHARGE_INTERVAL
    ensures RechargeUser(RechargeUser(u, now), later) == RechargeUser(u, now)
  {
  }
}

=== FILE: engine.dfy ===
/** The request handlers of the service as atomic transitions on the store.
    Each handler either fails with an error and leaves the store as it was
    (its transaction is never committed) or returns the new store and the
    reply body. */
module Engine {
  import opened Models
  import opened Tiers
  import opened Accrual

  /** The service's failures, with the HTTP status each is reported with. */
  datatype Error =
    | UserNotFound          // 404
    | TaskNotFound          // 404
    | TaskAlreadyCompleted  // 400
    | NoSessionsLeft        // 403
    | InvalidWallet         // 400
    | Internal              // 500: an unhandled exception or a violated database constraint

  datatype Result<T> = Ok(value: T) | Err(error: Error)

  /** A committed transition: the store afterwards and the reply body. */
  datatype Reply<T> = Reply(store: Store, body: T)

  /** The user-data reply shared by most handlers. */
  datatype UserView = UserView(
    score: int,
    walletAddress: Option<string>,
    gameSessions: int,
    maxSessions: int,
    tapLevel: int,
    username: Option<string>,
    claimableRewards: int,
    referralCode: string)

  /** The reply of the single-game submission. */
  datatype GameReceipt = GameReceipt(newScore: int, sessionsLeft: int)

  /** One task as listed to a user. */
  datatype TaskView = TaskView(
    id: TaskId, name: string, description: string, points: int,
    link: string, icon: string, completed: bool)

  const MIN_WALLET_LENGTH: int := 32
  const MAX_WALLET_LENGTH: int := 44

  /** The bonus a referrer receives for each account created with their code. */
  const REFERRAL_BONUS: int := 10000

  /** The reply for user `u`; its level is derived from the score, whatever
      level is stored. */
  function ViewOf(u: User, claimable: int): UserView {
    UserView(u.score, u.walletAddress, u.gameSessions, MAX_SESSIONS, TapLevel(u.score),
             u.username, claimable, u.referralCode)
  }

  function TaskViewOf(id: TaskId, t: Task, completed: bool): TaskView {
    TaskView(id, t.name, t.description, t.points, t.link, t.icon, completed)
  }

  /** Every user outside `changed` is still there, unmodified. */
  ghost predicate OthersUnchanged(before: map<UserId, User>, after: map<UserId, User>, changed: set<UserId>) {
    forall id :: id in before && id !in changed ==> id in after && after[id] == before[id]
  }

  /** `after` differs from `before` at most in the record of `uid`, which
      exists in both. */
  ghost predicate OnlyUserChanged(before: Store, after: Store, uid: UserId) {
    && uid in before.users
    && after.users.Keys == before.users.Keys
    && OthersUnchanged(before.users, after.users, {uid})
    && after.tasks == before.tasks
    && after.completions == before.completions
  }

  /** claim_rewards: fold the rewards farmed so far into the caller's score. */
  function ClaimRewards(s: Store, uid: UserId, now: Timestamp): (r: Result<Reply<UserView>>)
    ensures r.Err? <==> uid !in s.users
    ensures r.Err? ==> r.error == UserNotFound
    ensures r.Ok? ==>
      && OnlyUserChanged(s, r.value.store, uid)
      && r.value.store.users[uid] == ClaimUser(s.users[uid], now)
      && r.value.body == ViewOf(r.value.store.users[uid], 0)
  {
    if uid !in s.users then Err(UserNotFound)
    else
      var u := ClaimUser(s.users[uid], now);
      Ok(Reply(s.(users := s.users[uid := u]), ViewOf(u, 0)))
  }

  predicate WalletLengthOk(address: string) {
    MIN_WALLET_LENGTH <= |address| <= MAX_WALLET_LENGTH
  }

  /** save_wallet: store an address whose length passes the placeholder check. */
  function SaveWallet(s: Store, uid: UserId, address: string): (r: Result<Reply<UserView>>)
    ensures r == Err(UserNotFound) <==> uid !in s.users
    ensures r == Err(InvalidWallet) <==> uid in s.users && !WalletLengthOk(address)
    ensures r.Ok? <==> uid in s.users && WalletLengthOk(address)
    ensures r.Ok? ==>
      && OnlyUserChanged(s, r.value.store, uid)
      && r.value.store.users[uid] == s.users[uid].(walletAddress := Some(address))
      && r.value.body == ViewOf(r.value.store.users[uid], 0)
  {
    if uid !in s.users then Err(UserNotFound)
    else if !WalletLengthOk(address) then Err(InvalidWallet)
    else
      var u := s.users[uid].(walletAddress := Some(address));
      Ok(Reply(s.(users := s.users[uid := u]), ViewOf(u, 0)))
  }

  /** The level written by submit_game_score: the conditional chain has no
      final branch, so below 100 points the stored level is kept. */
  function SubmittedLevel(score: int, stored: int): (level: int)
    ensures score >= 100 ==> level == TapLevel(score)
    ensures score < 100 ==> level == stored
  {
    if score >= 5000 then 10
    else if score >= 1000 then 5
    else if score >= 300 then 3
    else if score >= 100 then 2
    else stored
  }

  /** submit_game_score: spend exactly one session on one game result;
      refused outright when no session is left. */
  function SubmitGameScore(s: Store, uid: UserId, pointsEarned: int): (r: Result<Reply<GameReceipt>>)
    ensures r == Err(UserNotFound) <==> uid !in s.users
    ensures r == Err(NoSessionsLeft) <==> uid in s.users && s.users[uid].gameSessions <= 0
    ensures r.Ok? <==> uid in s.users && s.users[uid].gameSessions > 0
    ensures r.Ok? ==> OnlyUserChanged(s, r.value.store, uid)
    ensures r.Ok? ==>
      var u, u' := s.users[uid], r.value.store.users[uid];
      && u' == u.(gameSessions := u'.gameSessions, score := u'.score, tapLevel := u'.tapLevel)
      && u'.gameSessions == u.gameSessions - 1
      && u'.score == u.score + pointsEarned
      && (u'.score >= 100 ==> u'.tapLevel == TapLevel(u'.score))
      && (u'.score < 100 ==> u'.tapLevel == u.tapLevel)
      && r.value.body == GameReceipt(u'.score, u'.gameSessions)
  {
    if uid !in s.users then Err(UserNotFound)
    else if s.users[uid].gameSessions <= 0 then Err(NoSessionsLeft)
    else
      var u := s.users[uid];
      var score := u.score + pointsEarned;
      var u' := u.(gameSessions := u.gameSessions - 1, score := score,
                   tapLevel := SubmittedLevel(score, u.tapLevel));
      Ok(Reply(s.(users := s.users[uid := u']), GameReceipt(u'.score, u'.gameSessions)))
  }

  /** sync_score: add a batch of taps. A session is spent only if one is
      left, and the taps count either way; the stored level is recomputed. */
  function SyncScore(s: Store, uid: UserId, taps: int): (r: Result<Reply<UserView>>)
    ensures r.Err? <==> uid !in s.users
    ensures r.Err? ==> r.error == UserNotFound
    ensures r.Ok? ==> OnlyUserChanged(s, r.value.store, uid)
    ensures r.Ok? ==>
      var u, u' := s.users[uid], r.value.store.users[uid];
      && u' == u.(gameSessions := u'.gameSessions, score := u'.score, tapLevel := u'.tapLevel)
      && u'.score == u.score + taps
      && (u.gameSessions > 0 ==> u'.gameSessions == u.gameSessions - 1)
      && (u.gameSessions <= 0 ==> u'.gameSessions == u.gameSessions)
      && u'.tapLevel == TapLevel(u'.score)
      && r.value.body == ViewOf(u', 0)
  {
    if uid !in s.users then Err(UserNotFound)
    else
      var u := s.users[uid];
      var sessions := if u.gameSessions > 0 then u.gameSessions - 1 else u.gameSessions;
      var score := u.score + taps;
      var u' := u.(gameSessions := sessions, score := score, tapLevel := TapLevel(score));
      Ok(Reply(s.(users := s.users[uid := u']), ViewOf(u', 0)))
  }

  /** claim_task: record the completion and pay the task's points, once per
      (user, task) pair. The stored level is left alone. A missing user is
      only noticed after both checks, where the service fails with an
      unhandled exception before committing. */
  function ClaimTask(s: Store, uid: UserId, tid: TaskId): (r: Result<Reply<TaskView>>)
    ensures r == Err(TaskNotFound) <==> tid !in s.tasks
    ensures r == Err(TaskAlreadyCompleted) <==> tid in s.tasks && (uid, tid) in s.completions
    ensures r == Err(Internal) <==> tid in s.tasks && (uid, tid) !in s.completions && uid !in s.users
    ensures r.Ok? <==> tid in s.tasks && (uid, tid) !in s.completions && uid in s.users
    ensures r.Ok? ==>
      var s' := r.value.store;
      && tid in s.tasks && uid in s.users
      && (uid, tid) !in s.completions
      && s'.completions == s.completions + {(uid, tid)}
      && s'.tasks == s.tasks
      && s'.users.Keys == s.users.Keys
      && OthersUnchanged(s.users, s'.users, {uid})
      && s'.users[uid] == s.users[uid].(score := s.users[uid].score + s.tasks[tid].points)
      && r.value.body == TaskViewOf(tid, s.tasks[tid], true)
  {
    if tid !in s.tasks then Err(TaskNotFound)
    else if (uid, tid) in s.completions then Err(TaskAlreadyCompleted)
    else if uid !in s.users then Err(Internal)
    else
      var task := s.tasks[tid];
      var u := s.users[uid];
      var s' := Store(s.users[uid := u.(score := u.score + task.points)], s.tasks,
                      s.completions + {(uid, tid)});
      Ok(Reply(s', TaskViewOf(tid, task, true)))
  }

  /** What the identity provider supplies with a request. Any field may be
      missing from the payload. */
  datatype Identity = Identity(
    id: UserId,
    firstName: Option<string>,
    lastName: Option<string>,
    username: Option<string>,
    referralCodeUsed: Option<string>)

  /** The referrer a new account links to: only a non-empty code that some
      stored user carries resolves. */
  function ResolveReferrer(users: map<UserId, User>, codeUsed: Option<string>): (r: Option<UserId>)
    requires UniqueCodes(users)
    ensures r.Some? <==> codeUsed.Some? && codeUsed.value != "" && CodeInUse(users, codeUsed.value)
    ensures r.Some? ==> r.value in users && users[r.value].referralCode == codeUsed.value
  {
    if codeUsed.Some? && codeUsed.value != "" then FindByCode(users, codeUsed.value) else None
  }

  /** The first-contact branch of get_user_data: pay the referrer (whose
      stored level is not recomputed) and insert the new account. The
      database rejects the whole transaction, bonus included, when the
      payload has no first name (a required column) or the new code collides
      with a stored one (the unique index). */
  function CreateUser(s: Store, ident: Identity, now: Timestamp, freshCode: string): (r: Result<Reply<UserView>>)
    requires ident.id !in s.users
    requires UniqueCodes(s.users)
    ensures r.Err? <==> ident.firstName.None? || CodeInUse(s.users, freshCode)
    ensures r.Err? ==> r.error == Internal
    ensures r.Ok? ==> r.value.store.users.Keys == s.users.Keys + {ident.id}
    ensures r.Ok? ==>
      var s', u := r.value.store, r.value.store.users[ident.id];
      var referrer := ResolveReferrer(s.users, ident.referralCodeUsed);
      && s'.tasks == s.tasks && s'.completions == s.completions
      && u.score == 0 && u.gameSessions == MAX_SESSIONS && u.tapLevel == 1
      && u.farmingRate == DEFAULT_FARMING_RATE && u.walletAddress.None?
      && u.lastClaimTime == now && u.lastSessionRecharge == now
      && u.referralCode == freshCode
      && ident.firstName == Some(u.firstName) && u.lastName == ident.lastName
      && u.username == ident.username
      && u.referredById == referrer
      && (referrer.Some? ==>
            && OthersUnchanged(s.users, s'.users, {referrer.value})
            && s'.users[referrer.value]
               == s.users[referrer.value].(score := s.users[referrer.value].score + REFERRAL_BONUS))
      && (referrer.None? ==> OthersUnchanged(s.users, s'.users, {}))
      && r.value.body == ViewOf(u, 0)
  {
    if ident.firstName.None? || CodeInUse(s.users, freshCode) then Err(Internal)
    else
      var referrer := ResolveReferrer(s.users, ident.referralCodeUsed);
      var users := if referrer.Some? then
          var ref := s.users[referrer.value];
          s.users[referrer.value := ref.(score := ref.score + REFERRAL_BONUS)]
        else s.users;
      var u := NewUser(ident.firstName.value, ident.lastName, ident.username, freshCode, referrer, now);
      Ok(Reply(s.(users := users[ident.id := u]), ViewOf(u, Claimable(u.lastClaimTime, u.farmingRate, now))))
  }

  /** The returning-user branch of get_user_data: refresh the names, recharge
      sessions, and report the rewards claimable now without claiming them.
      A payload without a first name always differs from the stored one, so
      the rename writes a missing value into the required column and the
      commit fails. */
  function RefreshUser(s: Store, ident: Identity, now: Timestamp): (r: Result<Reply<UserView>>)
    requires ident.id in s.users
    ensures r.Err? <==> ident.firstName.None?
    ensures r.Err? ==> r.error == Internal
    ensures r.Ok? ==> OnlyUserChanged(s, r.value.store, ident.id)
    ensures r.Ok? ==>
      var u, u' := s.users[ident.id], r.value.store.users[ident.id];
      && u' == RechargeUser(u.(username := ident.username, firstName := ident.firstName.value), now)
      && u'.score == u.score && u'.lastClaimTime == u.lastClaimTime
      && r.value.body == ViewOf(u', Claimable(u.lastClaimTime, u.farmingRate, now))
  {
    var u := s.users[ident.id];
    if u.username != ident.username || Some(u.firstName) != ident.firstName then
      if ident.firstName.None? then Err(Internal)
      else
        var named := u.(username := ident.username, firstName := ident.firstName.value);
        var u' := RechargeUser(named, now);
        Ok(Reply(s.(users := s.users[ident.id := u']),
                 ViewOf(u', Claimable(u'.lastClaimTime, u'.farmingRate, now))))
    else
      var u' := RechargeUser(u, now);
      Ok(Reply(s.(users := s.users[ident.id := u']),
               ViewOf(u', Claimable(u'.lastClaimTime, u'.farmingRate, now))))
  }

  /** get_user_data: create the account on first contact, otherwise refresh it. */
  function GetUserData(s: Store, ident: Identity, now: Timestamp, freshCode: string): (r: Result<Reply<UserView>>)
    requires UniqueCodes(s.users)
    ensures r.Err? <==> ident.firstName.None? || (ident.id !in s.users && CodeInUse(s.users, freshCode))
    ensures r.Err? ==> r.error == Internal
    ensures ident.id in s.users ==> r == RefreshUser(s, ident, now)
    ensures ident.id !in s.users ==> r == CreateUser(s, ident, now, freshCode)
    ensures r.Ok? ==>
      && ident.id in r.value.store.users
      && r.value.body.tapLevel == TapLevel(r.value.body.score)
      && r.value.body.score == r.value.store.users[ident.id].score
  {
    if ident.id in s.users then RefreshUser(s, ident, now)
    else CreateUser(s, ident, now, freshCode)
  }

  /** The ids of the tasks `uid` has completed. */
  function CompletedTaskIds(completions: set<Completion>, uid: UserId): (ids: set<TaskId>)
    ensures forall tid :: tid in ids <==> (uid, tid) in completions
  {
    var ids := set c | c in completions && c.0 == uid :: c.1;
    assert forall tid :: (uid, tid) in completions ==> tid in ids by {
      forall tid | (uid, tid) in completions ensures tid in ids {
        var c := (uid, tid);
        assert c in completions && c.0 == uid;
      }
    }
    ids
  }

  /** get_tasks: every catalogued task, keyed by id, flagged with whether
      `uid` has completed it. */
  function ListTasks(s: Store, uid: UserId): (listing: map<TaskId, TaskView>)
    ensures listing.Keys == s.tasks.Keys
    ensures forall tid :: tid in listing ==>
      && listing[tid] == TaskViewOf(tid, s.tasks[tid], listing[tid].completed)
      && (listing[tid].completed <==> (uid, tid) in s.completions)
  {
    var done := CompletedTaskIds(s.completions, uid);
    map tid | tid in s.tasks :: TaskViewOf(tid, s.tasks[tid], tid in done)
  }
}

=== FILE: invariants.dfy ===
/** Facts relating the handlers to each other and to the store's
    constraints: what each handler preserves, what a repeated request does,
    and how far the stored tap level can drift from the score. */
module Invariants {
  import opened Models
  import opened Tiers
  import opened Accrual
  import opened Engine

  /** The stored level is always a tier, and never above the tier the score
      earns. The service only writes the level in a few handlers, so it can
      lag behind the score but, while scores only grow, not run ahead. A
      negative result or task can break it (`SubmitCanLeaveLevelAhead`), so
      the lemmas below keep `Valid` on every valid store and keep this bound
      only where it held before. */
  ghost predicate LevelsBehindScore(users: map<UserId, User>) {
    forall id :: id in users ==> IsTier(users[id].tapLevel) && users[id].tapLevel <= TapLevel(users[id].score)
  }

  lemma ClaimRewardsPreserves(s: Store, uid: UserId, now: Timestamp)
    requires Valid(s)
    ensures ClaimRewards(s, uid, now).Ok? ==> Valid(ClaimRewards(s, uid, now).value.store)
    ensures ClaimRewards(s, uid, now).Ok? && LevelsBehindScore(s.users) ==>
      LevelsBehindScore(ClaimRewards(s, uid, now).value.store.users)
  {
    if uid in s.users {
      var u := s.users[uid];
      TapLevelMonotone(u.score, ClaimUser(u, now).score);
    }
  }

  lemma SaveWalletPreserves(s: Store, uid: UserId, address: string)
    requires Valid(s)
    ensures SaveWallet(s, uid, address).Ok? ==> Valid(SaveWallet(s, uid, address).value.store)
    ensures SaveWallet(s, uid, address).Ok? && LevelsBehindScore(s.users) ==>
      LevelsBehindScore(SaveWallet(s, uid, address).value.store.users)
  {
  }

  /** A strict submission keeps the store valid; it keeps the stored level
      behind the score only for a non-negative result. */
  lemma SubmitGameScorePreserves(s: Store, uid: UserId, pointsEarned: int)
    requires Valid(s)
    ensures SubmitGameScore(s, uid, pointsEarned).Ok? ==>
      Valid(SubmitGameScore(s, uid, pointsEarned).value.store)
    ensures SubmitGameScore(s, uid, pointsEarned).Ok? && pointsEarned >= 0 && LevelsBehindScore(s.users) ==>
      LevelsBehindScore(SubmitGameScore(s, uid, pointsEarned).value.store.users)
  {
    if uid in s.users && pointsEarned >= 0 {
      var u := s.users[uid];
      TapLevelMonotone(u.score, u.score + pointsEarned);
    }
  }

  /** Sync recomputes the stored level, so the level stays behind the score
      for any tap count, and a session count in range stays in range. */
  lemma SyncScorePreserves(s: Store, uid: UserId, taps: int)
    requires Valid(s)
    ensures SyncScore(s, uid, taps).Ok? ==> Valid(SyncScore(s, uid, taps).value.store)
    ensures SyncScore(s, uid, taps).Ok? && LevelsBehindScore(s.users) ==>
      LevelsBehindScore(SyncScore(s, uid, taps).value.store.users)
  {
  }

  lemma ClaimTaskPreserves(s: Store, uid: UserId, tid: TaskId)
    requires Valid(s)
    ensures ClaimTask(s, uid, tid).Ok? ==> Valid(ClaimTask(s, uid, tid).value.store)
    ensures ClaimTask(s, uid, tid).Ok? && s.tasks[tid].points >= 0 && LevelsBehindScore(s.users) ==>
      LevelsBehindScore(ClaimTask(s, uid, tid).value.store.users)
  {
    if tid in s.tasks && uid in s.users && s.tasks[tid].points >= 0 {
      var u := s.users[uid];
      TapLevelMonotone(u.score, u.score + s.tasks[tid].points);
    }
  }

  /** Refreshing a returning user only renames and recharges it. */
  lemma RefreshUserPreserves(s: Store, ident: Identity, now: Timestamp)
    requires Valid(s)
    requires ident.id in s.users
    ensures RefreshUser(s, ident, now).Ok? ==> Valid(RefreshUser(s, ident, now).value.store)
    ensures RefreshUser(s, ident, now).Ok? && LevelsBehindScore(s.users) ==>
      LevelsBehindScore(RefreshUser(s, ident, now).value.store.users)
  {
  }

  /** A new account's code collides with no stored one, so codes stay unique. */
  lemma CreateUserKeepsCodesUnique(s: Store, ident: Identity, now: Timestamp, freshCode: string)
    requires UniqueCodes(s.users) && ident.id !in s.users
    requires CreateUser(s, ident, now, freshCode).Ok?
    ensures UniqueCodes(CreateUser(s, ident, now, freshCode).value.store.users)
  {
    var users' := CreateUser(s, ident, now, freshCode).value.store.users;
    forall a, b | a in users' && b in users' && users'[a].referralCode == users'[b].referralCode
      ensures a == b
    {
      if a != b && (a == ident.id || b == ident.id) {
        assert false;
      }
    }
  }

  /** Account creation links only to an existing referrer and starts the new
      user at the bottom tier with a full allowance; the referrer's bonus only
      raises the tier its score earns. */
  lemma CreateUserPreserves(s: Store, ident: Identity, now: Timestamp, freshCode: string)
    requires Valid(s)
    requires ident.id !in s.users
    ensures CreateUser(s, ident, now, freshCode).Ok? ==> Valid(CreateUser(s, ident, now, freshCode).value.store)
    ensures CreateUser(s, ident, now, freshCode).Ok? && LevelsBehindScore(s.users) ==>
      LevelsBehindScore(CreateUser(s, ident, now, freshCode).value.store.users)
  {
    if CreateUser(s, ident, now, freshCode).Ok? {
      var referrer := ResolveReferrer(s.users, ident.referralCodeUsed);
      if referrer.Some? {
        var ref := s.users[referrer.value];
        TapLevelMonotone(ref.score, ref.score + REFERRAL_BONUS);
      }
      CreateUserKeepsCodesUnique(s, ident, now, freshCode);
    }
  }

  lemma GetUserDataPreserves(s: Store, ident: Identity, now: Timestamp, freshCode: string)
    requires Valid(s)
    ensures GetUserData(s, ident, now, freshCode).Ok? ==> Valid(GetUserData(s, ident, now, freshCode).value.store)
    ensures GetUserData(s, ident, now, freshCode).Ok? && LevelsBehindScore(s.users) ==>
      LevelsBehindScore(GetUserData(s, ident, now, freshCode).value.store.users)
  {
    if ident.id in s.users {
      RefreshUserPreserves(s, ident, now);
    } else {
      CreateUserPreserves(s, ident, now, freshCode);
    }
  }

  /** A claim repeated at the same instant changes nothing. */
  lemma ClaimRewardsTwiceIsNoop(s: Store, uid: UserId, now: Timestamp)
    requires ClaimRewards(s, uid, now).Ok?
    ensures
      var s1 := ClaimRewards(s, uid, now).value.store;
      ClaimRewards(s1, uid, now) == Ok(Reply(s1, ClaimRewards(s, uid, now).value.body))
  {
    var s1 := ClaimRewards(s, uid, now).value.store;
    ClaimTwiceIsNoop(s.users[uid], now);
    assert s1.users[uid := s1.users[uid]] == s1.users;
  }

  /** The quirk of the strict path: a negative result that takes the score
      below 100 leaves the stored level where it was, above the tier the new
      score earns. */
  lemma SubmitCanLeaveLevelAhead(s: Store, uid: UserId)
    requires uid in s.users
    requires s.users[uid].score == 150 && s.users[uid].tapLevel == 2 && s.users[uid].gameSessions == 1
    ensures
      var r := SubmitGameScore(s, uid, -100);
      && r.Ok?
      && r.value.store.users[uid].score == 50
      && r.value.store.users[uid].tapLevel == 2
      && TapLevel(r.value.store.users[uid].score) == 1
      && !LevelsBehindScore(r.value.store.users)
  {
  }

  /** The store after `n` claims of the same task by the same user, made one
      after another (a failed attempt leaves the store as it was). */
  function ClaimAttempts(s: Store, uid: UserId, tid: TaskId, n: nat): Store
    decreases n
  {
    if n == 0 then s
    else
      var r := ClaimTask(s, uid, tid);
      ClaimAttempts(if r.Ok? then r.value.store else s, uid, tid, n - 1)
  }

  /** Once the pair is recorded, any number of further claims changes nothing. */
  lemma {:induction false} ClaimsAfterCompletionChangeNothing(s: Store, uid: UserId, tid: TaskId, n: nat)
    requires (uid, tid) in s.completions
    ensures ClaimAttempts(s, uid, tid, n) == s
    decreases n
  {
    if n > 0 {
      assert ClaimTask(s, uid, tid).Err?;
      ClaimsAfterCompletionChangeNothing(s, uid, tid, n - 1);
    }
  }

  /** However often a task is claimed, the pair is recorded once and the
      task's points are paid once. */
  lemma {:induction false} ClaimTaskPaysOnce(s: Store, uid: UserId, tid: TaskId, n: nat)
    requires n >= 1
    requires tid in s.tasks && uid in s.users && (uid, tid) !in s.completions
    ensures
      var s' := ClaimAttempts(s, uid, tid, n);
      && s'.completions == s.completions + {(uid, tid)}
      && s'.tasks == s.tasks
      && s'.users == s.users[uid := s.users[uid].(score := s.users[uid].score + s.tasks[tid].points)]
  {
    var s1 := ClaimTask(s, uid, tid).value.store;
    assert s1.users == s.users[uid := s.users[uid].(score := s.users[uid].score + s.tasks[tid].points)];
    ClaimsAfterCompletionChangeNothing(s1, uid, tid, n - 1);
  }

  /** An immediate repeat of a successful task claim is refused. */
  lemma ClaimTaskTwiceFails(s: Store, uid: UserId, tid: TaskId)
    requires ClaimTask(s, uid, tid).Ok?
    ensures ClaimTask(ClaimTask(s, uid, tid).value.store, uid, tid) == Err(TaskAlreadyCompleted)
  {
  }

  /** The referral bonus is paid at account creation only: a later contact
      by the same user, whatever referral code it carries, changes nobody
      else's record. Such a contact fails only for a payload without a
      first name, and then changes nothing. */
  lemma ReferralBonusOnlyOnCreation(
    s: Store, ident: Identity, now: Timestamp, freshCode: string,
    later: Identity, laterNow: Timestamp, laterCode: string)
    requires UniqueCodes(s.users)
    requires ident.id !in s.users && later.id == ident.id
    requires GetUserData(s, ident, now, freshCode).Ok?
    ensures
      var s1 := GetUserData(s, ident, now, freshCode).value.store;
      && UniqueCodes(s1.users)
      && (GetUserData(s1, later, laterNow, laterCode).Ok? <==> later.firstName.Some?)
      && (GetUserData(s1, later, laterNow, laterCode).Ok? ==>
            OnlyUserChanged(s1, GetUserData(s1, later, laterNow, laterCode).value.store, ident.id))
  {
    CreateUserKeepsCodesUnique(s, ident, now, freshCode);
  }

  /** A successful claim shows up as a completed task in the listing. */
  lemma ClaimedTaskIsListedCompleted(s: Store, uid: UserId, tid: TaskId)
    requires ClaimTask(s, uid, tid).Ok?
    ensures
      var listing := ListTasks(ClaimTask(s, uid, tid).value.store, uid);
      tid in listing && listing[tid].completed
  {
  }

  /** A saved address is what the next read of the user reports; that read
      fails only for a payload without a first name. */
  lemma SavedWalletIsReported(s: Store, uid: UserId, address: string, ident: Identity, now: Timestamp, code: string)
    requires UniqueCodes(s.users)
    requires SaveWallet(s, uid, address).Ok? && ident.id == uid
    ensures
      var s1 := SaveWallet(s, uid, address).value.store;
      && UniqueCodes(s1.users)
      && (GetUserData(s1, ident, now, code).Ok? <==> ident.firstName.Some?)
      && (GetUserData(s1, ident, now, code).Ok? ==>
            GetUserData(s1, ident, now, code).value.body.walletAddress == Some(address))
  {
    var s1 := SaveWallet(s, uid, address).value.store;
    assert forall id :: id in s1.users ==> s1.users[id].referralCode == s.users[id].referralCode;
  }

  /** With no session left, a batched sync still adds the taps and the
      allowance stays at zero, where the strict path refuses outright. */
  lemma SyncWithoutSessionsStillScores(s: Store, uid: UserId, taps: int)
    requires uid in s.users && s.users[uid].gameSessions == 0
    ensures SyncScore(s, uid, taps).Ok?
    ensures SyncScore(s, uid, taps).value.store.users[uid].score == s.users[uid].score + taps
    ensures SyncScore(s, uid, taps).value.store.users[uid].gameSessions == 0
    ensures SubmitGameScore(s, uid, taps) == Err(NoSessionsLeft)
  {
  }
}

=== FILE: models.dfy ===
/** Records of the tap-to-earn store: users, the task catalogue and the
    (user, task) completion pairs, together with the schema's constraints and
    the invariants the handlers keep. Timestamps are whole seconds. */
module Models {

  /** The most game sessions a user can hold. */
  const MAX_SESSIONS: int := 10

  /** Points per hour of passive farming a new user starts with. */
  const DEFAULT_FARMING_RATE: int := 100

  type UserId = int
  type TaskId = int
  type Timestamp = int

  datatype Option<+T> = None | Some(value: T)

  datatype User = User(
    score: int,
    gameSessions: int,
    lastSessionRecharge: Timestamp,
    tapLevel: int,
    farmingRate: int,
    lastClaimTime: Timestamp,
    walletAddress: Option<string>,
    referralCode: string,
    referredById: Option<UserId>,
    firstName: string,
    lastName: Option<string>,
    username: Option<string>)

  datatype Task = Task(name: string, description: string, points: int, link: string, icon: string)

  /** A completion record; the pair is the table's whole primary key. */
  type Completion = (UserId, TaskId)

  datatype Store = Store(
    users: map<UserId, User>,
    tasks: map<TaskId, Task>,
    completions: set<Completion>)

  /** A user record with the schema's defaults for everything the caller
      does not supply; both timers start at `now`. The first name is the one
      required profile column. */
  function NewUser(
    firstName: string, lastName: Option<string>, username: Option<string>,
    referralCode: string, referredById: Option<UserId>, now: Timestamp): User
  {
    User(
      score := 0,
      gameSessions := MAX_SESSIONS,
      lastSessionRecharge := now,
      tapLevel := 1,
      farmingRate := DEFAULT_FARMING_RATE,
      lastClaimTime := now,
      walletAddress := None,
      referralCode := referralCode,
      referredById := referredById,
      firstName := firstName,
      lastName := lastName,
      username := username)
  }

  /** The unique index on referral codes. */
  ghost predicate UniqueCodes(users: map<UserId, User>) {
    forall a, b :: a in users && b in users && users[a].referralCode == users[b].referralCode ==> a == b
  }

  /** Whether some user carries `code`. */
  predicate CodeInUse(users: map<UserId, User>, code: string) {
    exists id :: id in users && users[id].referralCode == code
  }

  /** The foreign key on referred_by_id: a referrer is another stored user. */
  ghost predicate ReferrersExist(users: map<UserId, User>) {
    forall id :: id in users && users[id].referredById.Some? ==>
      users[id].referredById.value in users && users[id].referredById.value != id
  }

  ghost predicate SessionsInRange(users: map<UserId, User>) {
    forall id :: id in users ==> 0 <= users[id].gameSessions <= MAX_SESSIONS
  }

  /** Completions only ever name users that exist. */
  ghost predicate CompletionsOfUsers(s: Store) {
    forall c :: c in s.completions ==> c.0 in s.users
  }

  ghost predicate Valid(s: Store) {
    && UniqueCodes(s.users)
    && ReferrersExist(s.users)
    && SessionsInRange(s.users)
    && CompletionsOfUsers(s)
  }

  /** The user whose referral code is `code`, if any. The unique index makes
      the answer a function of the store. */
  function FindByCode(users: map<UserId, User>, code: string): (r: Option<UserId>)
    requires UniqueCodes(users)
    ensures r.Some? <==> CodeInUse(users, code)
    ensures r.Some? ==> r.value in users && users[r.value].referralCode == code
    ensures forall id :: id in users && users[id].referralCode == code ==> r == Some(id)
  {
    if CodeInUse(users, code) then
      var id :| id in users && users[id].referralCode == code; Some(id)
    else
      None
  }
}

=== FILE: tiers.dfy ===
/** The tap tier a score earns: a step function of the score. */
module Tiers {

  /** The levels a user can hold. */
  predicate IsTier(level: int) {
    level == 1 || level == 2 || level == 3 || level == 5 || level == 10
  }

  /** Whether `score` is high enough for `level`; level 1 needs nothing. */
  predicate Reaches(score: int, level: int) {
    || level == 1
    || (level == 2 && score >= 100)
    || (level == 3 && score >= 300)
    || (level == 5 && score >= 1000)
    || (level == 10 && score >= 5000)
  }

  /** get_tap_level: the highest tier the score reaches. */
  function TapLevel(score: int): (level: int)
    ensures IsTier(level)
    ensures Reaches(score, level)
    ensures forall t :: IsTier(t) && Reaches(score, t) ==> t <= level
  {
    if score >= 5000 then 10
    else if score >= 1000 then 5
    else if score >= 300 then 3
    else if score >= 100 then 2
    else 1
  }

  /** The thresholds as data, highest first: (minimum score, level). */
  const TierTable: seq<(int, int)> := [(5000, 10), (1000, 5), (300, 3), (100, 2)]

  /** Level from a threshold table: the first row the score meets, else 1. */
  function TierByTable(table: seq<(int, int)>, score: int): int
  {
    if |table| == 0 then 1
    else if score >= table[0].0 then table[0].1
    else TierByTable(table[1..], score)
  }

  /** The hand-written conditionals agree with the table at every score. */
  lemma TapLevelMatchesTable(score: int)
    ensures TapLevel(score) == TierByTable(TierTable, score)
  {
    var t1 := [(1000, 5), (300, 3), (100, 2)];
    var t2 := [(300, 3), (100, 2)];
    var t3 := [(100, 2)];
    assert TierTable[1..] == t1 && t1[1..] == t2 && t2[1..] == t3 && t3[1..] == [];
    assert TierByTable(t3, score) == (if score >= 100 then 2 else 1);
    assert TierByTable(t2, score) == (if score >= 300 then 3 else TierByTable(t3, score));
    assert TierByTable(t1, score) == (if score >= 1000 then 5 else TierByTable(t2, score));
  }

  /** A higher score never earns a lower tier. */
  lemma TapLevelMonotone(a: int, b: int)
    requires a <= b
    ensures TapLevel(a) <= TapLevel(b)
  {
  }

  /** The level on either side of every threshold. */
  lemma TapLevelAtThresholds()
    ensures TapLevel(99) == 1 && TapLevel(100) == 2
    ensures TapLevel(299) == 2 && TapLevel(300) == 3
    ensures TapLevel(999) == 3 && TapLevel(1000) == 5
    ensures TapLevel(4999) == 5 && TapLevel(5000) == 10
  {
  }
}
